=== FILE: README.md ===
# Romans Better RCON Client — protocol core in Dafny

This project models the protocol engine of a C# client for Valve's Source RCON protocol, as used
to administer Ark servers. It has two parts, and both are separated from the socket.

- **Packet codec** (`RconPacket.ToBytes` / `RconPacket.ToPacket`). One frame is
  `[int32 size][int32 id][int32 type][ASCII body][0x00][0x00]`. The size field counts everything
  after itself, so it is `10 + |body|`. All three integers are little-endian two's complement.
  Modules `Int32` and `Packet` model the codec.
- **Correlation engine** (`RconClient`). Each request takes two consecutive ids and registers one
  callback under both. When the first reply fragment arrives, the client sends an empty
  `RESPONSE_VALUE` "sentinel" request carrying the second id. Fragments are collected until the
  sentinel's echo comes back. The client then delivers the fragments and unregisters both ids.
  Module `Client` models this as a pure transition system:
  - the state is `currentId`, the id table, an outbox of sent packets, and a list of delivered
    completions;
  - `Request` allocates ids and sends the request;
  - `Dispatch` handles one incoming packet.

  Module `Frames` models the reader that cuts frames off the socket: a four-byte size prefix,
  then that many more bytes. Module `Correlation` holds the invariant of reachable states and the
  properties of the engine.

Points where the code's behaviour is easy to mistake:

- **Byte order.** The wire is little-endian. `IS_NOT_LITTLE_ENDIAN` is `false`, so bytes are
  reversed only on a big-endian host. The host's byte order is a parameter (`Endianness`), and
  `WriteInt32`/`ReadInt32` are proved to produce or read little-endian on either host. The
  client's frame reader is the exception: on a big-endian host it reverses the received size
  prefix in place before copying it into the frame, so the codec misreads the size (see
  "## Findings").
- **Short buffers.** `ToPacket` does not reject a buffer shorter than its size field claims.
  `MemoryStream.Read` leaves the rest of the fresh buffer zeroed, so the missing bytes read as
  zeros. Only a size field whose body length `size - 10` is negative or longer than the longest
  .NET string (`0x3FFFFFDF` characters, which `Encoding.ASCII.GetString` must build) fails
  (`MalformedPacket`).
- **Non-ASCII text.** Encoding does not fail on non-ASCII text. `Encoding.ASCII` substitutes `?`
  (byte `0x3F`) for every non-ASCII character, and for every byte from `0x80` up when decoding.
  The round trip is proved for ASCII bodies, and `NonAsciiBecomesQuestionMark` shows what
  happens to any other character.
- **When readiness fires.** Authentication signals readiness only when the echo of sentinel id 1
  arrives, not on the first reply to id 0. `Correlation.Scenario` follows the code.
- **Failed authentication.** The protocol reports a failed login with a reply whose id is -1.
  That id is never registered, so that reply is dropped. Readiness does not depend on it: it
  fires on the echo of sentinel id 1, which any earlier reply on id 0 (the protocol sends an
  empty RESPONSE_VALUE before the AUTH_RESPONSE) requests. When that echo arrives, readiness
  reports `authGood = true` even after a failed login (`Correlation.FailedLoginReportsSuccess`).
  Only if nothing ever arrives on id 0 or id 1 does readiness never fire.

## Model

| member | source | states |
|---|---|---|
| Int32.Wrap | RomansRconClient2/RconClient.cs:93-94 | `currentId++` on a C# `int`: the result is congruent to the input modulo 2^32 and equals it when the input is in range |
| Int32.LittleEndian | RomansRconClient2/RconPacket.cs:85-93 | four bytes, byte i being digit i of the value in base 256 (least significant first, two's complement for negatives), so the top byte has its high bit set exactly when the value is negative |
| Int32.FromLittleEndian | RomansRconClient2/RconPacket.cs:112-121 | the value read is negative exactly when the most significant (last) byte has its high bit set |
| Int32.LittleEndianRoundTrip | RomansRconClient2/RconPacket.cs:85-93 | reading back the four bytes written for any int32 gives that int32 |
| Int32.FromLittleEndianRoundTrip | RomansRconClient2/RconPacket.cs:112-121 | every four bytes are the encoding of the int32 read from them, so the encoding is a bijection |
| Int32.WriteInt32 | RomansRconClient2/RconPacket.cs:85-93 | host-order bytes, reversed only on a big-endian host, are the little-endian encoding on either host |
| Int32.ReadInt32 | RomansRconClient2/RconPacket.cs:112-121 | the same reversal followed by a host-order read gives the little-endian value on either host |
| Int32.WireRoundTrip | RomansRconClient2/RconPacket.cs:85-121 | an int32 written on a host of either byte order is read back unchanged on a host of either byte order |
| Packet.AsciiBytes | RomansRconClient2/RconPacket.cs:52 | one byte per character, and every byte is 7-bit |
| Packet.AsciiString | RomansRconClient2/RconPacket.cs:76 | one character per byte, and the decoded text is always ASCII |
| Packet.AsciiStringRoundTrip | RomansRconClient2/RconPacket.cs:52-76 | ASCII text survives encoding and decoding unchanged |
| Packet.AsciiBytesRoundTrip | RomansRconClient2/RconPacket.cs:52-76 | 7-bit bytes survive decoding and re-encoding unchanged |
| Packet.NonAsciiBecomesQuestionMark | RomansRconClient2/RconPacket.cs:52 | a non-ASCII character of a body comes back as `?` after a round trip |
| Packet.ReadBytes | RomansRconClient2/RconPacket.cs:105-110 | a read inside the buffer returns exactly those bytes; a read past the end returns zeros |
| Packet.Encode | RomansRconClient2/RconPacket.cs:39-59 | length is 14 plus the body length; the size field decodes to the length minus 4 (10 plus the body length); bytes 4..8 and 8..12 are the little-endian id and type; the body's ASCII bytes follow at offset 12; the last two bytes are zero |
| Packet.Decode | RomansRconClient2/RconPacket.cs:61-81 | fails exactly when the size field is below 10 or the body length `size - 10` exceeds the longest .NET string, which `GetString` must build; otherwise the body has `size - 10` characters, id and type are the little-endian words at 4 and 8, and the body is the text of bytes 12..size+2, so the two trailing bytes are skipped |
| Packet.EncodeWellFormed | RomansRconClient2/RconPacket.cs:39-59 | every encoded packet is a well-formed frame: the size field counts the rest, the body is ASCII and it ends in two zero bytes |
| Packet.RoundTrip | RomansRconClient2/RconPacket.cs:39-81 | decoding the encoding of a packet with an ASCII body gives the same id, type and body, whatever the hosts' byte orders |
| Packet.WellFormedRoundTrip | RomansRconClient2/RconPacket.cs:61-81 | a well-formed frame decodes, and re-encoding the result gives the frame back byte for byte |
| Frames.ReadPrefix | RomansRconClient2/RconClient.cs:141-148 | the size is the little-endian value of the four bytes received, on either host; the receive buffer is left as received on a little-endian host and reversed in place on a big-endian one |
| Frames.FrameLength | RomansRconClient2/RconClient.cs:166-172 | succeeds exactly when the prefix gives a size of at least 0 whose `size + 4` fits the runtime's array limit and is available; the frame length is then `size + 4`; fewer than four bytes is a closed connection |
| Frames.ReadFrameAsWritten | RomansRconClient2/RconClient.cs:166-172 | the frame as the client builds it: `size + 4` bytes, the receive buffer as `ReadIntFromStream` left it (reversed on a big-endian host) followed by the next `size` bytes of the stream |
| Frames.ReadFrame | RomansRconClient2/RconClient.cs:166-172 | corrected reader: same acceptance as the client's; the frame is the prefix as received plus the next `size` bytes, and the frame plus the rest is the stream |
| Frames.AsWrittenAgreesOnLittleEndianHost | RomansRconClient2/RconClient.cs:144-145 | on a little-endian host the reorder is a no-op, so the client's reader and the corrected one are the same |
| Frames.ReadEncodedFrame | RomansRconClient2/RconClient.cs:166-172 | with the corrected reader, an encoded packet followed by anything is cut off as exactly its own bytes, on either host |
| Frames.BigEndianHostMisreads | RomansRconClient2/RconClient.cs:144-170 | with the client's reader on a big-endian host, a packet whose size is below 0x40 reaches the codec with a reversed prefix; id and type survive but the size is read as `size * 2^24` and the body grows accordingly (still short enough for a .NET string) |
| Frames.BigEndianHostMisreadsHello | RomansRconClient2/RconClient.cs:144-179 | concretely, `Packet(2, 0, "Hello")` read on a big-endian host decodes to a body other than "Hello" |
| Client.JoinResponse | RomansRconClient2/RconClient.cs:66-72 | the loop's response is the fragments' bodies concatenated in order |
| Client.BodiesAppend | RomansRconClient2/RconClient.cs:67-72 | appending a packet appends its body to the concatenation |
| Client.Deliver | RomansRconClient2/RconClient.cs:40-73 | an authentication request completes with readiness and `authGood = true` whatever its fragments hold, and a command completes with a response text; the text itself is pinned down by `Client.JoinResponse` and `Correlation.ExecuteDeliversConcatenation` |
| Client.SentinelFrame | RomansRconClient2/RconClient.cs:113 | the sentinel request carries the sentinel id, type RESPONSE_VALUE (0) and an empty body, so it is never taken for a keep-alive |
| Correlation.SentinelFrameEncoding | RomansRconClient2/RconClient.cs:113 | the sentinel request encodes to the 14-byte minimum frame, and the echo of that frame decodes to the sentinel again on any pair of hosts |
| Client.Authenticate | RomansRconClient2/RconClient.cs:40 | the constructor's AUTH request: succeeds exactly when both ids are free, sends an AUTH (3) packet with the password as body under `currentId`, and registers an authentication entry whose sentinel is the next id |
| Client.BeginGetResponse | RomansRconClient2/RconClient.cs:62-64 | the public command request: succeeds exactly when both ids are free, sends an EXECCOMMAND (2) packet with the command as body under `currentId`, and registers a command entry whose sentinel is the next id |
| Client.Request | RomansRconClient2/RconClient.cs:90-138 | fails with `DuplicateId` exactly when `currentId` or its successor is registered; otherwise `currentId` advances by 2 (wrapping), the input goes to the outbox under id `currentId`, both ids map to one fresh entry, and every old entry is kept |
| Client.Connect | RomansRconClient2/RconClient.cs:31-44 | the constructor's authentication uses ids 0 and 1, sends the AUTH packet with the password as body, and leaves `currentId` at 2 |
| Client.Dispatch | RomansRconClient2/RconClient.cs:99-131 | an unregistered or keep-alive packet changes nothing; `currentId` never changes; at most one packet, the entry's sentinel, is sent; at most one completion is delivered, and that one is the entry's, with its id then unregistered |
| Client.DispatchAll | RomansRconClient2/RconClient.cs:152-184 | the read loop never moves `currentId` |
| Client.Receive | RomansRconClient2/RconClient.cs:157-185 | corrected round: one frame is read with the corrected reader, decoded and dispatched; the stream shrinks and the new state is the dispatch of some packet |
| Client.ReceiveAsWritten | RomansRconClient2/RconClient.cs:157-185 | the round as written, with the client's reader; on a little-endian host it is exactly `Client.Receive` |
| Correlation.InitialWf | RomansRconClient2/RconClient.cs:23-28 | a new client (`currentId` 0, empty table) satisfies the invariant |
| Correlation.RequestPreservesWf | RomansRconClient2/RconClient.cs:93-133 | while `currentId` has not wrapped, a request never meets a registered id; it gets ids `currentId` and `currentId + 1`, `currentId` grows by exactly 2, and the invariant is kept |
| Correlation.DispatchPreservesWf | RomansRconClient2/RconClient.cs:110-131 | dispatch keeps the invariant: both ids map to one entry; the entry holds only its own non-keep-alive replies; and the sentinel has been sent once after the first reply and never before it |
| Correlation.DispatchAllPreservesWf | RomansRconClient2/RconClient.cs:174-184 | the read loop keeps the invariant over any run of packets |
| Correlation.DispatchIgnoresExactly | RomansRconClient2/RconClient.cs:181-184 | in a reachable state, a packet leaves the state unchanged if and only if its id is unregistered or its body is `Keep Alive` |
| Correlation.AuthFailureReplyIgnored | RomansRconClient2/RconClient.cs:181-184 | the failed-login reply id -1 is never registered, so it is dropped |
| Correlation.DispatchIsolation | RomansRconClient2/RconClient.cs:181-184 | a packet carrying neither id of a request leaves that request's entry unchanged and completes nothing for it |
| Correlation.CollectOne | RomansRconClient2/RconClient.cs:110-130 | one non-sentinel reply is appended to the entry's fragments; the entry stays registered; the sentinel is sent only if this is the first reply; no other entry changes |
| Correlation.CollectFragments | RomansRconClient2/RconClient.cs:124-128 | a run of non-sentinel replies is appended in arrival order, one sentinel is sent for the first and none for the rest, and nothing is delivered |
| Correlation.SentinelCompletes | RomansRconClient2/RconClient.cs:116-123 | the sentinel's echo delivers the collected fragments under the primary id and removes exactly the two ids of that request |
| Correlation.ExecuteDeliversConcatenation | RomansRconClient2/RconClient.cs:62-74 | a command answered by fragments and then the sentinel's echo delivers the in-order concatenation of the fragment bodies, without the sentinel's body; the wire carries the command followed by one sentinel; the table returns to what it was |
| Correlation.AuthenticationReportsSuccess | RomansRconClient2/RconClient.cs:40-43 | whatever the server replies to the login, the sentinel's echo fires readiness with `authGood = true` |
| Correlation.FailedLoginReportsSuccess | RomansRconClient2/RconClient.cs:40-43 | after a login whose reply on id 0 is followed by the failure reply on id -1, the echo of sentinel 1 still delivers `Ready(true)` and clears the table: the failure is never reported |
| Correlation.Scenario | Tests/Program.cs:15-18 | login "ha", then "GetChat" answered by "Hello" and " World" on id 2 and the echo of id 3, delivers readiness and then "Hello World" |
| Correlation.ReceiveEncoded | RomansRconClient2/RconClient.cs:166-184 | with the corrected reader, a packet that arrives encoded on the wire is dispatched exactly as the packet itself on either host, and reading resumes after its frame |
| Correlation.ReceiveAsWrittenOnLittleEndianHost | RomansRconClient2/RconClient.cs:157-185 | on a little-endian host the client's receive round is the corrected one, so `Correlation.ReceiveEncoded` holds of the client there |
| Correlation.BigEndianHostDispatchesKeepAlive | RomansRconClient2/RconClient.cs:144-184 | on a big-endian host the client's receive round lets a keep-alive for the pending login reach its entry and change the state, where the corrected round drops it |

## Findings

| source | as written | input that shows it | evidently intended | confidence | as-written member | corrected member |
|---|---|---|---|---|---|---|
| RomansRconClient2/RconClient.cs:144-145 | `ReadIntFromStream` reverses the receive buffer in place on a big-endian host, and line 170 copies that reversed buffer into the frame, so `ToPacket` reverses it back and reads the size byte-swapped | the frame of `Packet(2, 0, "Hello")`, prefix `[15,0,0,0]`, received on a big-endian host: the size is read as `0x0F000000` and the body comes back 251658230 characters long; a "Keep Alive" frame is no longer recognised | the frame keeps the prefix bytes as received, so every packet decodes as sent on either host | high; not executed | Frames.ReadFrameAsWritten, Frames.BigEndianHostMisreadsHello, Client.ReceiveAsWritten, Correlation.BigEndianHostDispatchesKeepAlive | Frames.ReadFrame, Frames.ReadEncodedFrame, Client.Receive, Correlation.ReceiveEncoded |

## Left out

- Socket creation, connect, `BeginReceive`/`EndReceive`, `Dispose` and the disposed-socket check are network I/O. The socket is replaced by the byte sequence it will deliver (`Frames`, `Client.Receive`) and the outbox of sent packets.
- Short reads are not modelled. `sock.Receive` and `EndReceive` can return fewer bytes than asked for, and the code ignores the count. The model treats every receive as a full read, and a stream that ends early is `ConnectionClosed`.
- The busy-wait in `GetResponse` only waits for the callback on another thread. The delivered completions stand for it.
- Thread safety of the id table and of `currentId` is not modelled. Dispatch and requests are one sequential caller.
- Overflow of `currentId`: `Client.Request` wraps it like a C# `int`, but the invariant lemmas assume no wrap has happened (`currentId <= int.MaxValue - 2`).
- Client.Request: when `Dictionary.Add` throws, the C# leaves some state behind (`currentId` already advanced, possibly the first id registered). The model returns only `Err(DuplicateId)` and drops that state. `Correlation.RequestPreservesWf` proves the error cannot happen from a reachable state before `currentId` wraps.
- Packet.Encode requires a body of at most `0x3FFFFFDF` characters, the longest .NET string, which a C# body can never exceed anyway.
- Packet.Encode: a Dafny `char` is a Unicode scalar value, while a C# string holds UTF-16 code units. The two agree below U+10000. A character from U+10000 up is one `char` here but two code units in C#, so for such a body `ToBytes` sizes its buffer and size field one larger per character than the model states, and what `Encoding.ASCII` writes for the surrogate pair is not modelled. Lone surrogates cannot be represented in the model at all.
- The catch-rethrow around decoding only rethrows. Decode errors come back as `Err` results from `Client.Receive`.
- `Tests/Program.cs` is a console entry point with no logic of its own. Only its scenario (password "ha", command "GetChat") is used, in `Correlation.Scenario`.

=== FILE: client.dfy ===
/** RconClient's request/response correlation, as a pure transition system.

    Each request takes two consecutive ids and registers one handler under both. On the first
    reply for either id the handler sends an empty "sentinel" request carrying the second id;
    replies are collected until that second id comes back, then they are delivered and both ids
    are unregistered. The socket becomes an outbox of sent packets, the callbacks a list of
    delivered completions, and the background reader successive calls of Dispatch. */
module Client {
  import opened Int32
  import opened Outcomes
  import opened Packet
  import Frames

  /** The body of the keep-alive packets Ark servers send; dispatch ignores them. */
  const KeepAlive: string := "Keep Alive"

  /** Which callback a request was registered with: the constructor's authentication
      callback or BeginGetResponse's string callback. */
  datatype Purpose = Authentication | Command

  /** The state captured by one inner callback, shared by the two ids it is registered under. */
  datatype Entry = Entry(
    primaryId: int32,
    sentinelId: int32,
    purpose: Purpose,
    packetsGot: nat,
    fragments: seq<Packet>)

  /** What a completed request hands its caller: readiness with authGood, or the response text. */
  datatype Outcome = Ready(authGood: bool) | Response(text: string)

  datatype Completion = Completion(requestId: int32, outcome: Outcome)

  /** currentId, the internalCallbacks dictionary, the packets sent and the callbacks fired. */
  datatype State = State(
    currentId: int32,
    table: map<int32, Entry>,
    outbox: seq<Packet>,
    delivered: seq<Completion>)

  /** A freshly constructed client: currentId is 0 and nothing is registered or sent. */
  const Initial: State := State(0, map[], [], [])

  /** The empty RESPONSE_VALUE request whose echo marks the end of a response. */
  function SentinelFrame(sentinelId: int32): (r: Packet)
    ensures r.id == sentinelId && r.kind == ResponseValue && r.body == ""
    ensures r.body != KeepAlive
  {
    Packet(sentinelId, ResponseValue, "")
  }

  /** The bodies of the packets, in order. */
  function Bodies(ps: seq<Packet>): string {
    if ps == [] then "" else ps[0].body + Bodies(ps[1..])
  }

  lemma {:induction false} BodiesAppend(ps: seq<Packet>, q: Packet)
    ensures Bodies(ps + [q]) == Bodies(ps) + q.body
  {
    if ps == [] {
      assert [q][1..] == [];
    } else {
      assert (ps + [q])[1..] == ps[1..] + [q];
      BodiesAppend(ps[1..], q);
    }
  }

  /** The loop of BeginGetResponse's callback: the response is the packets' bodies, in order. */
  method JoinResponse(packets: seq<Packet>) returns (response: string)
    ensures response == Bodies(packets)
  {
    response := "";
    var i := 0;
    while i < |packets|
      invariant 0 <= i <= |packets|
      invariant response == Bodies(packets[..i])
    {
      BodiesAppend(packets[..i], packets[i]);
      assert packets[..i + 1] == packets[..i] + [packets[i]];
      response := response + packets[i].body;
      i := i + 1;
    }
    assert packets[..i] == packets;
  }

  /** What the callback a request was registered with receives on completion. Authentication
      reports success whatever the reply held. */
  function Deliver(purpose: Purpose, fragments: seq<Packet>): (o: Outcome)
    ensures purpose == Authentication <==> o == Ready(true)
    ensures purpose == Command <==> o.Response?
  {
    match purpose
    case Authentication => Ready(true)
    case Command => Response(Bodies(fragments))
  }

  /** PrivateGetPackets: ids currentId and currentId + 1 (each `currentId++` wraps like a C#
      `int`), both registered to one fresh entry, then the input sent under the first id.
      Dictionary.Add throws on an id already present. */
  function Request(s: State, purpose: Purpose, input: Packet): (r: Result<State>)
    ensures r.Ok? <==> s.currentId !in s.table && Wrap(s.currentId + 1) !in s.table
    ensures r.Err? ==> r.error == DuplicateId
    ensures r.Ok? ==>
              var id, testId := s.currentId, Wrap(s.currentId + 1);
              && r.value.currentId == Wrap(s.currentId + 2)
              && r.value.outbox == s.outbox + [input.(id := id)]
              && r.value.delivered == s.delivered
              && r.value.table.Keys == s.table.Keys + {id, testId}
              && r.value.table[id] == r.value.table[testId] == Entry(id, testId, purpose, 0, [])
              && forall k :: k in s.table ==> r.value.table[k] == s.table[k]
  {
    var id := s.currentId;
    var testId := Wrap(id + 1);
    if id in s.table || testId in s.table then
      Err(DuplicateId)
    else
      var e := Entry(id, testId, purpose, 0, []);
      Ok(State(Wrap(id + 2), s.table[id := e][testId := e], s.outbox + [input.(id := id)], s.delivered))
  }

  /** The authentication the constructor starts: an AUTH packet with the password as body. */
  function Authenticate(s: State, password: string): (r: Result<State>)
    ensures r.Ok? <==> s.currentId !in s.table && Wrap(s.currentId + 1) !in s.table
    ensures r.Ok? ==>
              && r.value.outbox == s.outbox + [Packet(s.currentId, AuthRequest, password)]
              && s.currentId in r.value.table
              && r.value.table[s.currentId].purpose == Authentication
              && r.value.table[s.currentId].sentinelId == Wrap(s.currentId + 1)
  {
    Request(s, Authentication, Packet(0, AuthRequest, password))
  }

  /** BeginGetResponse: an EXECCOMMAND packet with the command as body. */
  function BeginGetResponse(s: State, cmd: string): (r: Result<State>)
    ensures r.Ok? <==> s.currentId !in s.table && Wrap(s.currentId + 1) !in s.table
    ensures r.Ok? ==>
              && r.value.outbox == s.outbox + [Packet(s.currentId, ExecCommandOrAuthResponse, cmd)]
              && s.currentId in r.value.table
              && r.value.table[s.currentId].purpose == Command
              && r.value.table[s.currentId].sentinelId == Wrap(s.currentId + 1)
  {
    Request(s, Command, Packet(0, ExecCommandOrAuthResponse, cmd))
  }

  /** The constructor's protocol part: authentication is the first request, on ids 0 and 1. */
  function Connect(password: string): (s: State)
    ensures s.currentId == 2
    ensures s.outbox == [Packet(0, AuthRequest, password)]
    ensures s.table.Keys == {0, 1} && s.table[0] == s.table[1] == Entry(0, 1, Authentication, 0, [])
    ensures s.delivered == []
  {
    Authenticate(Initial, password).value
  }

  /** PrivateGotPacket's dispatch and the inner callback it invokes. A packet whose id is not
      registered, or whose body is the keep-alive text, is dropped. Otherwise the first packet
      for the entry sends the sentinel request; the sentinel's echo delivers the collected
      fragments and unregisters both ids; any other packet is collected. */
  function Dispatch(s: State, p: Packet): (r: State)
    ensures p.id !in s.table || p.body == KeepAlive ==> r == s
    ensures r.currentId == s.currentId
    ensures |s.outbox| <= |r.outbox| <= |s.outbox| + 1
    ensures |r.outbox| == |s.outbox| + 1 ==> p.id in s.table && r.outbox == s.outbox + [SentinelFrame(s.table[p.id].sentinelId)]
    ensures |r.outbox| == |s.outbox| ==> r.outbox == s.outbox
    ensures r.delivered == s.delivered || (p.id in s.table && r.delivered == s.delivered + [Completion(s.table[p.id].primaryId, Deliver(s.table[p.id].purpose, s.table[p.id].fragments))] && p.id !in r.table)
  {
    if p.id !in s.table || p.body == KeepAlive then
      s
    else
      var e := s.table[p.id];
      var isEnd := e.sentinelId == p.id;
      var outbox := if e.packetsGot == 0 then s.outbox + [SentinelFrame(e.sentinelId)] else s.outbox;
      if isEnd then
        State(s.currentId, s.table - {e.primaryId, e.sentinelId}, outbox,
              s.delivered + [Completion(e.primaryId, Deliver(e.purpose, e.fragments))])
      else
        var e' := e.(packetsGot := e.packetsGot + 1, fragments := e.fragments + [p]);
        State(s.currentId, s.table[e.primaryId := e'][e.sentinelId := e'], outbox, s.delivered)
  }

  /** The reader loop over a run of packets, one Dispatch each, in arrival order. */
  function DispatchAll(s: State, ps: seq<Packet>): (r: State)
    ensures r.currentId == s.currentId
    decreases |ps|
  {
    if ps == [] then s else DispatchAll(Dispatch(s, ps[0]), ps[1..])
  }

  datatype Received = Received(state: State, rest: seq<byte>)

  /** One round of PrivateGotPacket: read a frame, decode it, dispatch it. The frame keeps its
      prefix as received (see Frames for the reader as written). */
  function Receive(s: State, stream: seq<byte>, host: Endianness): (r: Result<Received>)
    ensures r.Ok? ==> |r.value.rest| < |stream|
    ensures r.Ok? ==> exists p: Packet :: r.value.state == Dispatch(s, p)
  {
    var split :- Frames.ReadFrame(stream, host);
    var p :- Decode(split.frame, host);
    Ok(Received(Dispatch(s, p), split.rest))
  }

  /** PrivateGotPacket as written, with the frame whose prefix ReadIntFromStream has reordered.
      On a little-endian host it is Receive. */
  function ReceiveAsWritten(s: State, stream: seq<byte>, host: Endianness): (r: Result<Received>)
    ensures host.LittleEndianHost? ==> r == Receive(s, stream, host)
  {
    Frames.AsWrittenAgreesOnLittleEndianHost(stream);
    var split :- Frames.ReadFrameAsWritten(stream, host);
    var p :- Decode(split.frame, host);
    Ok(Received(Dispatch(s, p), split.rest))
  }
}

=== FILE: correlation.dfy ===
/** Properties of the correlation state machine in module Client: the invariant every reachable
    state keeps, fresh id pairs, exactly one sentinel per answered request, in-order delivery of
    the collected fragments, and isolation between concurrent requests. */
module Correlation {
  import opened Int32
  import opened Outcomes
  import opened Packet
  import opened Client

  /** How many sentinel requests for sentinelId the outbox holds. */
  function SentinelsSent(outbox: seq<Packet>, sentinelId: int32): nat {
    if outbox == [] then 0
    else SentinelsSent(outbox[..|outbox| - 1], sentinelId)
         + (if outbox[|outbox| - 1] == SentinelFrame(sentinelId) then 1 else 0)
  }

  lemma SentinelsSentAppend(outbox: seq<Packet>, q: Packet, sentinelId: int32)
    ensures SentinelsSent(outbox + [q], sentinelId)
            == SentinelsSent(outbox, sentinelId) + (if q == SentinelFrame(sentinelId) then 1 else 0)
  {
  }

  /** Nothing carrying an id at or above `bound` has been sent, so no sentinel for such an id. */
  lemma {:induction false} NoSentinelAbove(outbox: seq<Packet>, bound: int, sentinelId: int32)
    requires forall i :: 0 <= i < |outbox| ==> outbox[i].id < bound
    requires sentinelId >= bound
    ensures SentinelsSent(outbox, sentinelId) == 0
  {
    if outbox != [] {
      NoSentinelAbove(outbox[..|outbox| - 1], bound, sentinelId);
    }
  }

  /** What holds of an entry registered under key k. */
  ghost predicate EntryWf(s: State, k: int32, e: Entry) {
    && (k == e.primaryId || k == e.sentinelId)
    && e.sentinelId == e.primaryId + 1
    && e.primaryId in s.table && s.table[e.primaryId] == e
    && e.sentinelId in s.table && s.table[e.sentinelId] == e
    && e.packetsGot == |e.fragments|
    && (forall i :: 0 <= i < |e.fragments| ==> e.fragments[i].id == e.primaryId && e.fragments[i].body != KeepAlive)
    && SentinelsSent(s.outbox, e.sentinelId) == (if e.packetsGot == 0 then 0 else 1)
  }

  /** The invariant of every state reachable without wrapping currentId: every registered id
      lies below currentId, every entry is registered under exactly its two ids, it has collected
      only replies to its own primary id, and it has sent its sentinel exactly once if it has
      had any reply and not at all otherwise. */
  ghost predicate Wf(s: State) {
    && 0 <= s.currentId
    && (forall k :: k in s.table ==> 0 <= k < s.currentId)
    && (forall k {:trigger EntryWf(s, k, s.table[k])} :: k in s.table ==> EntryWf(s, k, s.table[k]))
    && (forall i :: 0 <= i < |s.outbox| ==> s.outbox[i].id < s.currentId)
  }

  lemma InitialWf()
    ensures Wf(Initial)
  {
  }

  /** A request from a reachable state never meets a registered id: it gets fresh ids
      currentId and currentId + 1, currentId advances by exactly 2, and the invariant holds
      after it. */
  lemma RequestPreservesWf(s: State, purpose: Purpose, input: Packet)
    requires Wf(s) && s.currentId <= MaxInt32 - 2
    ensures Request(s, purpose, input).Ok?
    ensures var t := Request(s, purpose, input).value;
            && t.currentId == s.currentId + 2
            && t.table[s.currentId].sentinelId == s.currentId + 1
            && Wf(t)
  {
    var id := s.currentId;
    var t := Request(s, purpose, input).value;
    var e := Entry(id, id + 1, purpose, 0, []);
    assert forall i :: 0 <= i < |t.outbox| ==> t.outbox[i].id < t.currentId by {
      forall i | 0 <= i < |t.outbox|
        ensures t.outbox[i].id < t.currentId
      {
        if i < |s.outbox| {
          assert t.outbox[i] == s.outbox[i];
        }
      }
    }
    forall sid: int32 | sid > id
      ensures SentinelsSent(t.outbox, sid) == 0
    {
      NoSentinelAbove(s.outbox, id, sid);
      SentinelsSentAppend(s.outbox, input.(id := id), sid);
    }
    forall k | k in t.table
      ensures EntryWf(t, k, t.table[k])
    {
      if k != id && k != id + 1 {
        var f := s.table[k];
        assert EntryWf(s, k, f);
        SentinelsSentAppend(s.outbox, input.(id := id), f.sentinelId);
      }
    }
  }

  /** An entry other than the one a dispatch touches has neither of that entry's ids. */
  lemma EntriesDisjoint(s: State, k: int32, j: int32)
    requires Wf(s) && k in s.table && j in s.table && s.table[k] != s.table[j]
    ensures s.table[j].primaryId != s.table[k].primaryId
    ensures s.table[j].primaryId != s.table[k].sentinelId
    ensures s.table[j].sentinelId != s.table[k].primaryId
    ensures s.table[j].sentinelId != s.table[k].sentinelId
  {
    assert EntryWf(s, k, s.table[k]);
    assert EntryWf(s, j, s.table[j]);
  }

  lemma DispatchPreservesWf(s: State, p: Packet)
    requires Wf(s)
    ensures Wf(Dispatch(s, p))
  {
    if p.id in s.table && p.body != KeepAlive {
      var t := Dispatch(s, p);
      var e := s.table[p.id];
      assert EntryWf(s, p.id, e);
      var q := SentinelFrame(e.sentinelId);
      assert forall i :: 0 <= i < |t.outbox| ==> t.outbox[i].id < t.currentId by {
        forall i | 0 <= i < |t.outbox|
          ensures t.outbox[i].id < t.currentId
        {
          if i < |s.outbox| {
            assert t.outbox[i] == s.outbox[i];
          }
        }
      }
      forall sid: int32
        ensures SentinelsSent(t.outbox, sid)
                == SentinelsSent(s.outbox, sid) + (if e.packetsGot == 0 && sid == e.sentinelId then 1 else 0)
      {
        if e.packetsGot == 0 {
          SentinelsSentAppend(s.outbox, q, sid);
        }
      }
      forall k | k in t.table
        ensures EntryWf(t, k, t.table[k])
      {
        if k != e.primaryId && k != e.sentinelId {
          assert EntryWf(s, k, s.table[k]);
          EntriesDisjoint(s, p.id, k);
        } else {
          var e' := t.table[k];
          assert p.id == e.primaryId;
          forall i | 0 <= i < |e'.fragments|
            ensures e'.fragments[i].id == e'.primaryId && e'.fragments[i].body != KeepAlive
          {
            if i < |e.fragments| {
              assert e'.fragments[i] == e.fragments[i];
            }
          }
        }
      }
    }
  }

  lemma {:induction false} DispatchAllAppend(s: State, ps: seq<Packet>, q: Packet)
    ensures DispatchAll(s, ps + [q]) == Dispatch(DispatchAll(s, ps), q)
    decreases |ps|
  {
    if ps == [] {
      assert [q][1..] == [];
    } else {
      assert (ps + [q])[1..] == ps[1..] + [q];
      DispatchAllAppend(Dispatch(s, ps[0]), ps[1..], q);
    }
  }

  lemma {:induction false} DispatchAllPreservesWf(s: State, ps: seq<Packet>)
    requires Wf(s)
    ensures Wf(DispatchAll(s, ps))
    decreases |ps|
  {
    if ps != [] {
      DispatchPreservesWf(s, ps[0]);
      DispatchAllPreservesWf(Dispatch(s, ps[0]), ps[1..]);
    }
  }

  /** A packet nobody registered, or a keep-alive, leaves everything as it was; any other
      packet changes the state. */
  lemma DispatchIgnoresExactly(s: State, p: Packet)
    requires Wf(s)
    ensures Dispatch(s, p) == s <==> p.id !in s.table || p.body == KeepAlive
  {
    if p.id in s.table && p.body != KeepAlive {
      var e := s.table[p.id];
      assert EntryWf(s, p.id, e);
      if e.sentinelId != p.id {
        assert |Dispatch(s, p).table[p.id].fragments| == |e.fragments| + 1;
      }
    }
  }

  /** The protocol's failed-authentication reply carries id -1, which is never registered:
      it is dropped, so readiness never fires with authGood false. */
  lemma AuthFailureReplyIgnored(s: State, p: Packet)
    requires Wf(s) && p.id == -1
    ensures Dispatch(s, p) == s
  {
  }

  /** No cross-delivery: a packet for one request leaves every other request's entry as it
      was and completes nothing on its behalf. */
  lemma DispatchIsolation(s: State, p: Packet, k: int32)
    requires Wf(s) && k in s.table
    requires p.id != s.table[k].primaryId && p.id != s.table[k].sentinelId
    ensures k in Dispatch(s, p).table && Dispatch(s, p).table[k] == s.table[k]
    ensures forall i :: |s.delivered| <= i < |Dispatch(s, p).delivered| ==>
              Dispatch(s, p).delivered[i].requestId != s.table[k].primaryId
  {
    assert EntryWf(s, k, s.table[k]);
    if p.id in s.table && p.body != KeepAlive {
      assert EntryWf(s, p.id, s.table[p.id]);
      EntriesDisjoint(s, p.id, k);
    }
  }

  /** One reply to a pending request that is not its sentinel: it is collected, the sentinel
      is sent if it was the first reply, and no other entry changes. */
  lemma CollectOne(s: State, pid: int32, f: Packet)
    requires Wf(s) && pid in s.table && s.table[pid].primaryId == pid
    requires f.id == pid && f.body != KeepAlive
    ensures var t := Dispatch(s, f);
            var e := s.table[pid];
            && Wf(t)
            && t.currentId == s.currentId
            && t.delivered == s.delivered
            && t.table.Keys == s.table.Keys
            && t.table[pid] == e.(packetsGot := e.packetsGot + 1, fragments := e.fragments + [f])
            && (forall k :: k in s.table && k != pid && k != pid + 1 ==> t.table[k] == s.table[k])
            && t.outbox == s.outbox + (if e.packetsGot == 0 then [SentinelFrame(pid + 1)] else [])
  {
    assert EntryWf(s, pid, s.table[pid]);
    DispatchPreservesWf(s, f);
    forall k | k in s.table && k != pid && k != pid + 1
      ensures k in Dispatch(s, f).table && Dispatch(s, f).table[k] == s.table[k]
    {
      assert EntryWf(s, k, s.table[k]);
      EntriesDisjoint(s, pid, k);
      DispatchIsolation(s, f, k);
    }
  }

  /** Replies to a pending request, none of them its sentinel, are collected in arrival order;
      the first of them sends the sentinel, the rest send nothing; nothing is delivered and no
      other entry changes. */
  lemma {:induction false} CollectFragments(s: State, pid: int32, frags: seq<Packet>)
    requires Wf(s) && pid in s.table && s.table[pid].primaryId == pid
    requires forall i :: 0 <= i < |frags| ==> frags[i].id == pid && frags[i].body != KeepAlive
    ensures var t := DispatchAll(s, frags);
            var e := s.table[pid];
            && Wf(t)
            && t.currentId == s.currentId
            && t.delivered == s.delivered
            && t.table.Keys == s.table.Keys
            && t.table[pid] == e.(packetsGot := e.packetsGot + |frags|, fragments := e.fragments + frags)
            && (forall k :: k in s.table && k != pid && k != pid + 1 ==> t.table[k] == s.table[k])
            && t.outbox == s.outbox + (if e.packetsGot == 0 && frags != [] then [SentinelFrame(pid + 1)] else [])
    decreases |frags|
  {
    var e := s.table[pid];
    if frags == [] {
      assert e.fragments + frags == e.fragments;
    } else {
      var s1 := Dispatch(s, frags[0]);
      CollectOne(s, pid, frags[0]);
      var e1 := s1.table[pid];
      assert e1.primaryId == pid;
      CollectFragments(s1, pid, frags[1..]);
      var t := DispatchAll(s1, frags[1..]);
      assert DispatchAll(s, frags) == t;
      assert e1.fragments + frags[1..] == e.fragments + frags;
      assert t.table[pid] == e.(packetsGot := e.packetsGot + |frags|, fragments := e.fragments + frags);
    }
  }

  /** The echo of the sentinel delivers the collected fragments and unregisters both ids of the
      request, and only those. */
  lemma SentinelCompletes(s: State, pid: int32, q: Packet)
    requires Wf(s) && pid in s.table && s.table[pid].primaryId == pid
    requires q.id == pid + 1 && q.body != KeepAlive
    ensures var t := Dispatch(s, q);
            var e := s.table[pid];
            && t.table == s.table - {pid, pid + 1}
            && t.delivered == s.delivered + [Completion(pid, Deliver(e.purpose, e.fragments))]
            && t.outbox == s.outbox + (if e.packetsGot == 0 then [SentinelFrame(pid + 1)] else [])
  {
    assert EntryWf(s, pid, s.table[pid]);
  }

  /** BeginGetResponse end to end: a command whose reply arrives as fragments, followed by the
      echo of the sentinel, delivers exactly the fragments' bodies concatenated in arrival
      order (the sentinel's own body is not part of it); the wire carries the command and then
      one sentinel; both ids are unregistered again. */
  lemma {:induction false} ExecuteDeliversConcatenation(s: State, cmd: string, frags: seq<Packet>, q: Packet)
    requires Wf(s) && s.currentId <= MaxInt32 - 2
    requires forall i :: 0 <= i < |frags| ==> frags[i].id == s.currentId && frags[i].body != KeepAlive
    requires q.id == s.currentId + 1 && q.body != KeepAlive
    ensures BeginGetResponse(s, cmd).Ok?
    ensures var t := DispatchAll(BeginGetResponse(s, cmd).value, frags + [q]);
            && Wf(t)
            && t.currentId == s.currentId + 2
            && t.table == s.table
            && t.outbox == s.outbox + [Packet(s.currentId, ExecCommandOrAuthResponse, cmd), SentinelFrame(s.currentId + 1)]
            && t.delivered == s.delivered + [Completion(s.currentId, Response(Bodies(frags)))]
  {
    var id := s.currentId;
    RequestPreservesWf(s, Command, Packet(0, ExecCommandOrAuthResponse, cmd));
    var s1 := BeginGetResponse(s, cmd).value;
    CollectFragments(s1, id, frags);
    var s2 := DispatchAll(s1, frags);
    SentinelCompletes(s2, id, q);
    DispatchAllAppend(s1, frags, q);
    DispatchPreservesWf(s2, q);
    var t := Dispatch(s2, q);
    assert [] + frags == frags;
    assert t.table == s.table;
  }

  /** The constructor's authentication: however the server replies, once the sentinel's echo
      arrives readiness fires with authGood true. */
  lemma {:induction false} AuthenticationReportsSuccess(password: string, frags: seq<Packet>, q: Packet)
    requires forall i :: 0 <= i < |frags| ==> frags[i].id == 0 && frags[i].body != KeepAlive
    requires q.id == 1 && q.body != KeepAlive
    ensures var t := DispatchAll(Connect(password), frags + [q]);
            && t.delivered == [Completion(0, Ready(true))]
            && t.table == map[]
            && t.outbox == [Packet(0, AuthRequest, password), SentinelFrame(1)]
  {
    var s0 := Connect(password);
    InitialWf();
    RequestPreservesWf(Initial, Authentication, Packet(0, AuthRequest, password));
    CollectFragments(s0, 0, frags);
    var s1 := DispatchAll(s0, frags);
    SentinelCompletes(s1, 0, q);
    DispatchAllAppend(s0, frags, q);
    assert Dispatch(s1, q).table == map[];
  }

  /** A failed login still reports success. The server's first reply on id 0 sends the sentinel
      request; its failure reply on id -1 is dropped; the echo of sentinel 1 then fires readiness
      with `authGood = true`. */
  lemma {:induction false} FailedLoginReportsSuccess(password: string, frags: seq<Packet>, failure: Packet, q: Packet)
    requires forall i :: 0 <= i < |frags| ==> frags[i].id == 0 && frags[i].body != KeepAlive
    requires failure.id == -1
    requires q.id == 1 && q.body != KeepAlive
    ensures var t := DispatchAll(Connect(password), frags + [failure, q]);
            && t.delivered == [Completion(0, Ready(true))]
            && t.table == map[]
  {
    var s0 := Connect(password);
    InitialWf();
    RequestPreservesWf(Initial, Authentication, Packet(0, AuthRequest, password));
    CollectFragments(s0, 0, frags);
    var s1 := DispatchAll(s0, frags);
    AuthFailureReplyIgnored(s1, failure);
    DispatchAllAppend(s0, frags, failure);
    assert frags + [failure, q] == (frags + [failure]) + [q];
    DispatchAllAppend(s0, frags + [failure], q);
    SentinelCompletes(s1, 0, q);
    assert Dispatch(s1, q).table == map[];
  }

  /** Authentication with password "ha", the server's reply on id 0 and the echo of sentinel 1,
      then the command "GetChat" answered by "Hello" and " World" on id 2 and the echo of
      sentinel 3: readiness fires, then the response "Hello World" is delivered. */
  lemma Scenario()
    ensures var s0 := Connect("ha");
            var s1 := DispatchAll(s0, [Packet(0, ExecCommandOrAuthResponse, ""), Packet(1, ResponseValue, "")]);
            && s1.delivered == [Completion(0, Ready(true))]
            && BeginGetResponse(s1, "GetChat").Ok?
            && var s2 := BeginGetResponse(s1, "GetChat").value;
               var s3 := DispatchAll(s2, [Packet(2, ResponseValue, "Hello"), Packet(2, ResponseValue, " World"),
                                          Packet(3, ResponseValue, "")]);
               && s3.delivered == [Completion(0, Ready(true)), Completion(2, Response("Hello World"))]
               && s3.table == map[]
               && s3.outbox == [Packet(0, AuthRequest, "ha"), SentinelFrame(1),
                                Packet(2, ExecCommandOrAuthResponse, "GetChat"), SentinelFrame(3)]
  {
    var auth := [Packet(0, ExecCommandOrAuthResponse, "")];
    AuthenticationReportsSuccess("ha", auth, Packet(1, ResponseValue, ""));
    assert auth + [Packet(1, ResponseValue, "")] == [Packet(0, ExecCommandOrAuthResponse, ""), Packet(1, ResponseValue, "")];
    var s1 := DispatchAll(Connect("ha"), [Packet(0, ExecCommandOrAuthResponse, ""), Packet(1, ResponseValue, "")]);
    InitialWf();
    RequestPreservesWf(Initial, Authentication, Packet(0, AuthRequest, "ha"));
    DispatchAllPreservesWf(Connect("ha"), [Packet(0, ExecCommandOrAuthResponse, ""), Packet(1, ResponseValue, "")]);
    var frags := [Packet(2, ResponseValue, "Hello"), Packet(2, ResponseValue, " World")];
    ExecuteDeliversConcatenation(s1, "GetChat", frags, Packet(3, ResponseValue, ""));
    assert frags + [Packet(3, ResponseValue, "")] == [Packet(2, ResponseValue, "Hello"), Packet(2, ResponseValue, " World"), Packet(3, ResponseValue, "")];
    assert frags[1..] == [Packet(2, ResponseValue, " World")];
    assert frags[1..][1..] == [];
    assert Bodies(frags[1..][1..]) == "";
    assert Bodies(frags[1..]) == " World" + "";
    assert Bodies(frags) == "Hello" + " World";
    assert "Hello" + " World" == "Hello World";
  }

  /** A whole packet arriving on the wire, followed by anything, is dispatched exactly as the
      packet itself, and reading continues after its frame. */
  lemma ReceiveEncoded(s: State, p: Packet, rest: seq<byte>, writer: Endianness, reader: Endianness)
    requires |p.body| <= MaxBodyLength && IsAscii(p.body)
    ensures Receive(s, Encode(p, writer) + rest, reader) == Ok(Received(Dispatch(s, p), rest))
  {
    Frames.ReadEncodedFrame(p, rest, writer, reader);
    RoundTrip(p, writer, reader);
  }

  /** On a little-endian host the receive path as written is the corrected one. */
  lemma ReceiveAsWrittenOnLittleEndianHost(s: State, stream: seq<byte>)
    ensures ReceiveAsWritten(s, stream, LittleEndianHost) == Receive(s, stream, LittleEndianHost)
  {
  }

  /** On a big-endian host the receive path as written misreads frames: a keep-alive for the
      pending login reaches the login's entry (sending its sentinel) instead of being dropped,
      as the corrected path drops it. */
  lemma BigEndianHostDispatchesKeepAlive(writer: Endianness)
    ensures var s := Connect("ha");
            var e := Encode(Packet(0, ResponseValue, KeepAlive), writer);
            && Receive(s, e, BigEndianHost) == Ok(Received(s, []))
            && ReceiveAsWritten(s, e, BigEndianHost).Ok?
            && ReceiveAsWritten(s, e, BigEndianHost).value.state != s
  {
    var s := Connect("ha");
    var p := Packet(0, ResponseValue, KeepAlive);
    var e := Encode(p, writer);
    ReceiveEncoded(s, p, [], writer, BigEndianHost);
    assert e + [] == e;
    InitialWf();
    RequestPreservesWf(Initial, Authentication, Packet(0, AuthRequest, "ha"));
    Frames.BigEndianHostMisreads(p, writer);
    var q := Decode(Frames.ReadFrameAsWritten(e, BigEndianHost).value.frame, BigEndianHost).value;
    assert q.id == 0 && |q.body| != |KeepAlive|;
    DispatchIgnoresExactly(s, q);
  }

  /** The sentinel request is the shortest frame there is, and the server's echo of it decodes to
      the sentinel again, so the reply that closes a response is recognised by id alone. */
  lemma SentinelFrameEncoding(sentinelId: int32, writer: Endianness, reader: Endianness)
    ensures |Encode(SentinelFrame(sentinelId), writer)| == Overhead
    ensures Decode(Encode(SentinelFrame(sentinelId), writer), reader) == Ok(SentinelFrame(sentinelId))
  {
    RoundTrip(SentinelFrame(sentinelId), writer, reader);
  }
}

=== FILE: frames.dfy ===
/** The frame reader of RconClient.PrivateGotPacket: a four-byte size prefix, then that many
    more bytes, handed to the codec with the prefix in front. The socket is modelled as the
    bytes it will still deliver, and every receive is taken to be a full read.

    As written, the reader decodes the prefix with RconClient.ReadIntFromStream, which reverses
    the receive buffer in place on a big-endian host before it is copied into the frame; the
    codec then reverses it again and misreads the size. ReadFrameAsWritten models that;
    ReadFrame keeps the prefix as received, which is what the rest of the model uses. */
module Frames {
  import opened Int32
  import opened Outcomes
  import Packet

  /** One frame cut from the front of the stream, and what follows it. */
  datatype Split = Split(frame: seq<byte>, rest: seq<byte>)

  /** What RconClient.ReadIntFromStream leaves behind: the size it returns, and the receive
      buffer it was given, reordered in place. */
  datatype PrefixRead = PrefixRead(size: int32, buffer: seq<byte>)

  /** RconClient.ReadIntFromStream on the four-byte receive buffer. The size is the
      little-endian value of the bytes received on either host; the buffer is left reversed
      on a big-endian host. */
  function ReadPrefix(received: seq<byte>, host: Endianness): (r: PrefixRead)
    requires |received| == 4
    ensures r.size == FromLittleEndian(received)
    ensures host.LittleEndianHost? ==> r.buffer == received
    ensures host.BigEndianHost? ==> r.buffer == Reverse4(received)
  {
    var buf := ReorderForHost(received, host);
    PrefixRead(HostInt32(buf, host), buf)
  }

  /** The length of the first frame of the stream, prefix included. A negative size makes
      `new byte[size + 4]` either fail or be too short for the prefix copied into it; a size
      whose `size + 4` passes the runtime's array limit fails the allocation (this includes
      every size where `size + 4` wraps round); a stream that ends early is a closed connection. */
  function FrameLength(stream: seq<byte>, host: Endianness): (r: Result<nat>)
    ensures r.Ok? <==>
              && |stream| >= 4
              && 0 <= FromLittleEndian(stream[..4])
              && FromLittleEndian(stream[..4]) + 4 <= MaxByteArrayLength
              && FromLittleEndian(stream[..4]) + 4 <= |stream|
    ensures r.Ok? ==> r.value == FromLittleEndian(stream[..4]) + 4
    ensures |stream| < 4 ==> r == Err(ConnectionClosed)
  {
    if |stream| < 4 then
      Err(ConnectionClosed)
    else
      var size := ReadPrefix(stream[..4], host).size;
      if size < 0 || size + 4 > MaxByteArrayLength then
        Err(MalformedFrame)
      else if |stream| - 4 < size then
        Err(ConnectionClosed)
      else
        Ok(size + 4)
  }

  /** The reader as the client is written: the prefix copied into the frame is the receive
      buffer after ReadIntFromStream, so on a big-endian host it is reversed. */
  function ReadFrameAsWritten(stream: seq<byte>, host: Endianness): (r: Result<Split>)
    ensures r.Ok? <==> FrameLength(stream, host).Ok?
    ensures r.Ok? ==>
              && |r.value.frame| == FrameLength(stream, host).value
              && r.value.frame[4..] + r.value.rest == stream[4..]
              && r.value.frame[..4] == (if host.LittleEndianHost? then stream[..4] else Reverse4(stream[..4]))
  {
    var length :- FrameLength(stream, host);
    Ok(Split(ReadPrefix(stream[..4], host).buffer + stream[4..length], stream[length..]))
  }

  /** Reads one frame, with the prefix kept as it was received. */
  function ReadFrame(stream: seq<byte>, host: Endianness): (r: Result<Split>)
    ensures r.Ok? <==> FrameLength(stream, host).Ok?
    ensures r.Ok? ==>
              && r.value.frame + r.value.rest == stream
              && |r.value.frame| == FromLittleEndian(stream[..4]) + 4
  {
    var length :- FrameLength(stream, host);
    Ok(Split(stream[..length], stream[length..]))
  }

  /** On a little-endian host the reader as written and the corrected one agree. */
  lemma AsWrittenAgreesOnLittleEndianHost(stream: seq<byte>)
    ensures ReadFrameAsWritten(stream, LittleEndianHost) == ReadFrame(stream, LittleEndianHost)
  {
    if FrameLength(stream, LittleEndianHost).Ok? {
      var length := FrameLength(stream, LittleEndianHost).value;
      assert stream[..4] + stream[4..length] == stream[..length];
    }
  }

  /** An encoded packet followed by anything is read back as exactly that packet's bytes, on a
      host of either byte order. */
  lemma ReadEncodedFrame(p: Packet.Packet, rest: seq<byte>, writer: Endianness, reader: Endianness)
    requires |p.body| <= Packet.MaxBodyLength
    ensures ReadFrame(Packet.Encode(p, writer) + rest, reader) == Ok(Split(Packet.Encode(p, writer), rest))
  {
    var e := Packet.Encode(p, writer);
    assert (e + rest)[..4] == e[0..4];
    assert (e + rest)[..|e|] == e;
    assert (e + rest)[|e|..] == rest;
  }

  /** The reader as written, on a big-endian host, hands the codec a frame whose prefix is
      reversed, so the codec reads the size byte-swapped. For a short packet (size below 0x40)
      that is size * 2^24, which still fits a .NET string: id and type survive, but the body
      comes back millions of characters long. Sizes 0x40 to 0x7F swap to a body too long for a
      string and sizes 0x80 to 0xFF to a negative size, so decoding throws; from 0x100 up the
      outcome depends on the size's low byte (0x100 swaps to 0x10000 and decodes). */
  lemma {:induction false} BigEndianHostMisreads(p: Packet.Packet, writer: Endianness)
    requires |p.body| < 0x40 - 10
    ensures var e := Packet.Encode(p, writer);
            var r := ReadFrameAsWritten(e, BigEndianHost);
            var size := 10 + |p.body|;
            && r.Ok?
            && r.value.frame[..4] == [0, 0, 0, size]
            && Packet.Decode(r.value.frame, BigEndianHost).Ok?
            && Packet.Decode(r.value.frame, BigEndianHost).value.id == p.id
            && Packet.Decode(r.value.frame, BigEndianHost).value.kind == p.kind
            && |Packet.Decode(r.value.frame, BigEndianHost).value.body| == size * 0x100_0000 - 10
  {
    var e := Packet.Encode(p, writer);
    var size := 10 + |p.body|;
    var frame := ReadFrameAsWritten(e, BigEndianHost).value.frame;
    MisreadPrefix(p, writer);
    assert Packet.ReadBytes(frame, 0, 4) == frame[..4];
    assert Packet.SizeField(frame) == size * 0x100_0000;
    LittleEndianRoundTrip(p.id);
    LittleEndianRoundTrip(p.kind);
    var d := Packet.Decode(frame, BigEndianHost);
    assert d.Ok?;
    assert d.value.id == p.id && d.value.kind == p.kind;
  }

  /** The frame the reader as written builds on a big-endian host for a short packet: the
      prefix reversed, then id and type as the writer sent them. */
  lemma MisreadPrefix(p: Packet.Packet, writer: Endianness)
    requires |p.body| < 0x40 - 10
    ensures var r := ReadFrameAsWritten(Packet.Encode(p, writer), BigEndianHost);
            && r.Ok?
            && r.value.frame[..4] == [0, 0, 0, 10 + |p.body|]
            && r.value.frame[4..8] == LittleEndian(p.id)
            && r.value.frame[8..12] == LittleEndian(p.kind)
  {
    var e := Packet.Encode(p, writer);
    var size := 10 + |p.body|;
    FromLittleEndianRoundTrip(e[0..4]);
    assert e[0..4] == LittleEndian(size) == [size, 0, 0, 0];
    assert e[..4] == e[0..4];
    var r := ReadFrameAsWritten(e, BigEndianHost);
    assert r.Ok?;
    var frame := r.value.frame;
    assert frame[..4] == [0, 0, 0, size];
    assert frame[4..] == e[4..];
    assert frame[4..8] == frame[4..][..4] == e[4..][..4] == e[4..8];
    assert frame[8..12] == frame[4..][4..8] == e[4..][4..8] == e[8..12];
  }

  /** The frame of Packet(2, 0, "Hello") read by the reader as written on a big-endian host:
      the codec sees size 0x0F000000 instead of 15 and returns a body of 251658230 characters
      instead of "Hello". */
  lemma BigEndianHostMisreadsHello(writer: Endianness)
    ensures var e := Packet.Encode(Packet.Packet(2, Packet.ResponseValue, "Hello"), writer);
            var r := ReadFrameAsWritten(e, BigEndianHost);
            && r.Ok?
            && Packet.Decode(r.value.frame, BigEndianHost).Ok?
            && Packet.Decode(r.value.frame, BigEndianHost).value.body != "Hello"
  {
    BigEndianHostMisreads(Packet.Packet(2, Packet.ResponseValue, "Hello"), writer);
  }
}

=== FILE: int32.dfy ===
/** 32-bit signed integers and their four-byte wire form, as written by
    RconPacket.WriteIntToStream and read by RconPacket.ReadIntFromStream. */
module Int32 {

  /** One octet on the wire. */
  type byte = b: int | 0 <= b < 0x100

  const TwoTo32: int := 0x1_0000_0000
  const MinInt32: int := -0x8000_0000
  const MaxInt32: int := 0x7FFF_FFFF

  /** The longest `byte[]` the .NET runtime allocates (Array.MaxLength); `new byte[n]` for a
      larger n throws OutOfMemoryException. */
  const MaxByteArrayLength: int := 0x7FFF_FFC7

  /** C#'s `int`. */
  type int32 = n: int | -0x8000_0000 <= n <= 0x7FFF_FFFF

  /** C#'s unchecked `int` arithmetic: the value congruent to x modulo 2^32 in the signed range. */
  function Wrap(x: int): (r: int32)
    ensures (r - x) % TwoTo32 == 0
    ensures MinInt32 <= x <= MaxInt32 ==> r == x
  {
    (x - MinInt32) % TwoTo32 + MinInt32
  }

  /** The two's-complement bytes of n, least significant first: byte i is digit i of n in base
      256 (Euclidean division, so this holds for negative n as well). */
  function LittleEndian(n: int32): (r: seq<byte>)
    ensures |r| == 4
    ensures n < 0 <==> r[3] >= 0x80
    ensures && r[0] == n % 0x100
            && r[1] == n / 0x100 % 0x100
            && r[2] == n / 0x1_0000 % 0x100
            && r[3] == n / 0x100_0000 % 0x100
  {
    var u := if n < 0 then n + TwoTo32 else n;
    DigitsModTwoTo32(n, u);
    [u % 0x100, u / 0x100 % 0x100, u / 0x1_0000 % 0x100, u / 0x100_0000]
  }

  /** Adding a multiple of 2^32 leaves the four low base-256 digits unchanged. */
  lemma DigitsModTwoTo32(n: int, u: int)
    requires u == n || u == n + TwoTo32
    ensures u % 0x100 == n % 0x100
    ensures u / 0x100 % 0x100 == n / 0x100 % 0x100
    ensures u / 0x1_0000 % 0x100 == n / 0x1_0000 % 0x100
    ensures u / 0x100_0000 % 0x100 == n / 0x100_0000 % 0x100
  {
    if u != n {
      ShiftByte(n, 0x100_0000);
      ShiftByte(n / 0x100, 0x1_0000);
      ShiftTwoBytes(n, 0x1_0000);
      ShiftByte(n / 0x1_0000, 0x100);
      ShiftThreeBytes(n, 0x100);
      ShiftByte(n / 0x100_0000, 1);
    }
  }

  /** Division by 256, 2^16 and 2^24 shifts a multiple of the divisor out unchanged. */
  lemma ShiftByte(x: int, k: int)
    ensures (x + 0x100 * k) % 0x100 == x % 0x100
    ensures (x + 0x100 * k) / 0x100 == x / 0x100 + k
  {
  }

  lemma ShiftTwoBytes(x: int, k: int)
    ensures (x + 0x1_0000 * k) / 0x1_0000 == x / 0x1_0000 + k
  {
  }

  lemma ShiftThreeBytes(x: int, k: int)
    ensures (x + 0x100_0000 * k) / 0x100_0000 == x / 0x100_0000 + k
  {
  }

  /** The int32 whose two's-complement bytes, least significant first, are b. */
  function FromLittleEndian(b: seq<byte>): (n: int32)
    requires |b| == 4
    ensures n < 0 <==> b[3] >= 0x80
  {
    var u: int := b[0] as int + 0x100 * (b[1] as int + 0x100 * (b[2] as int + 0x100 * b[3] as int));
    if u <= MaxInt32 then u else u - TwoTo32
  }

  lemma LittleEndianRoundTrip(n: int32)
    ensures FromLittleEndian(LittleEndian(n)) == n
  {
    var u := if n < 0 then n + TwoTo32 else n;
    assert u / 0x1_0000 == u / 0x100 / 0x100;
    assert u / 0x100_0000 == u / 0x100 / 0x100 / 0x100;
  }

  lemma FromLittleEndianRoundTrip(b: seq<byte>)
    requires |b| == 4
    ensures LittleEndian(FromLittleEndian(b)) == b
  {
    var u: int := b[0] as int + 0x100 * (b[1] as int + 0x100 * (b[2] as int + 0x100 * b[3] as int));
    DigitsOfUnsigned(b[0], b[1], b[2], b[3]);
    var n := FromLittleEndian(b);
    DigitsModTwoTo32(n, u);
    var r := LittleEndian(n);
    assert r[0] == b[0] && r[1] == b[1] && r[2] == b[2] && r[3] == b[3];
  }

  /** The base-256 digits of b0 + 256 b1 + 65536 b2 + 2^24 b3 are b0, b1, b2, b3. */
  lemma DigitsOfUnsigned(b0: byte, b1: byte, b2: byte, b3: byte)
    ensures var u: int := b0 as int + 0x100 * (b1 as int + 0x100 * (b2 as int + 0x100 * b3 as int));
            && u % 0x100 == b0
            && u / 0x100 % 0x100 == b1
            && u / 0x1_0000 % 0x100 == b2
            && u / 0x100_0000 % 0x100 == b3
  {
    var k2: int := b2 as int + 0x100 * b3 as int;
    var k1: int := b1 as int + 0x100 * k2;
    var u: int := b0 as int + 0x100 * k1;
    assert u % 0x100 == b0 && u / 0x100 == k1 by { ShiftByte(b0, k1); }
    assert k1 % 0x100 == b1 by { ShiftByte(b1, k2); }
    var low2: int := b0 as int + 0x100 * b1 as int;
    assert u / 0x1_0000 == k2 by { ShiftTwoBytes(low2, k2); }
    assert k2 % 0x100 == b2 by { ShiftByte(b2, b3); }
    var low3: int := low2 + 0x1_0000 * b2 as int;
    assert u / 0x100_0000 == b3 by { ShiftThreeBytes(low3, b3); }
  }

  /** Byte order of the machine running the client (BitConverter.IsLittleEndian). */
  datatype Endianness = LittleEndianHost | BigEndianHost

  /** RconPacket.IS_NOT_LITTLE_ENDIAN. */
  const IsNotLittleEndian: bool := false

  function Reverse4(b: seq<byte>): (r: seq<byte>)
    requires |b| == 4
  {
    [b[3], b[2], b[1], b[0]]
  }

  /** BitConverter.GetBytes: the bytes of n in host order. */
  function HostBytes(n: int32, host: Endianness): seq<byte>
  {
    if host.LittleEndianHost? then LittleEndian(n) else Reverse4(LittleEndian(n))
  }

  /** BitConverter.ToInt32: four bytes read in host order. */
  function HostInt32(b: seq<byte>, host: Endianness): int32
    requires |b| == 4
  {
    if host.LittleEndianHost? then FromLittleEndian(b) else FromLittleEndian(Reverse4(b))
  }

  /** The `if (BitConverter.IsLittleEndian == IS_NOT_LITTLE_ENDIAN) Array.Reverse(buf)` step that
      both directions share: four bytes reversed on a big-endian host, kept on a little-endian one. */
  function ReorderForHost(b: seq<byte>, host: Endianness): (r: seq<byte>)
    requires |b| == 4
    ensures |r| == 4
  {
    if host.LittleEndianHost? == IsNotLittleEndian then Reverse4(b) else b
  }

  /** WriteIntToStream: host-order bytes, reversed when the host's order equals IsNotLittleEndian.
      Whatever the host, the wire carries little-endian. */
  function WriteInt32(n: int32, host: Endianness): (r: seq<byte>)
    ensures r == LittleEndian(n)
  {
    ReorderForHost(HostBytes(n, host), host)
  }

  /** ReadIntFromStream (in both RconPacket and RconClient): the same reversal, then ToInt32.
      Whatever the host, the wire is read as little-endian. */
  function ReadInt32(b: seq<byte>, host: Endianness): (n: int32)
    requires |b| == 4
    ensures n == FromLittleEndian(b)
  {
    HostInt32(ReorderForHost(b, host), host)
  }

  lemma WireRoundTrip(n: int32, writer: Endianness, reader: Endianness)
    ensures ReadInt32(WriteInt32(n, writer), reader) == n
  {
    LittleEndianRoundTrip(n);
  }
}

=== FILE: outcomes.dfy ===
/** Error results of the RCON client. Each constructor stands for an exception the
    C# client raises (or, for ConnectionClosed, a stream that ends mid-frame). */
module Outcomes {

  datatype Error =
    | MalformedPacket   // ToPacket: the size field implies a negative body, or one too long to allocate
    | MalformedFrame    // frame reader: the size prefix cannot size a buffer
    | ConnectionClosed  // frame reader: the stream ends before the frame does
    | DuplicateId       // Dictionary.Add of an id that is already registered

  datatype Result<+T> = Ok(value: T) | Err(error: Error) {
    predicate IsFailure() {
      Err?
    }

    function PropagateFailure<U>(): Result<U>
      requires Err?
    {
      Err(error)
    }

    function Extract(): T
      requires Ok?
    {
      value
    }
  }
}

=== FILE: packet.dfy ===
/** RconPacket: one frame of the Source RCON protocol,
    [int32 size][int32 id][int32 type][ASCII body][0x00][0x00], all integers little-endian. */
module Packet {
  import opened Int32
  import opened Outcomes

  /** RconPacketType. Wire value 2 serves both an exec command and an auth response. */
  const ResponseValue: int32 := 0
  const ExecCommandOrAuthResponse: int32 := 2
  const AuthRequest: int32 := 3

  /** A packet: `kind` is the C# `type` field, kept as a raw int as the C# class does. */
  datatype Packet = Packet(id: int32, kind: int32, body: string)

  /** Bytes of the frame besides the body: size, id, type and the two trailing zeros. */
  const Overhead: nat := 14

  /** The longest .NET string (string.MaxLength); building a longer one throws
      OutOfMemoryException. It is well below MaxByteArrayLength. */
  const MaxStringLength: nat := 0x3FFF_FFDF

  /** A body is a .NET string, so it is never longer than this; ToBytes' buffer of Overhead plus
      the body length then fits the runtime's array limit. */
  const MaxBodyLength: nat := MaxStringLength

  /** The byte Encoding.ASCII substitutes for anything outside 7-bit ASCII. */
  const QuestionMark: byte := 0x3F

  predicate IsAscii(s: string) {
    forall i :: 0 <= i < |s| ==> s[i] as int < 0x80
  }

  predicate AsciiBytesOnly(b: seq<byte>) {
    forall i :: 0 <= i < |b| ==> b[i] < 0x80
  }

  /** Encoding.ASCII.GetBytes: one byte per character, '?' for non-ASCII characters.
      A Dafny char is a Unicode scalar value, while a C# string holds UTF-16 code units; the
      two agree below U+10000, and characters from U+10000 up are not modelled faithfully. */
  function AsciiBytes(s: string): (r: seq<byte>)
    ensures |r| == |s|
    ensures AsciiBytesOnly(r)
  {
    seq(|s|, i requires 0 <= i < |s| => if s[i] as int < 0x80 then s[i] as int else QuestionMark)
  }

  /** Encoding.ASCII.GetString: one character per byte, '?' for bytes from 0x80 up. */
  function AsciiString(b: seq<byte>): (s: string)
    ensures |s| == |b|
    ensures IsAscii(s)
  {
    seq(|b|, i requires 0 <= i < |b| => if b[i] < 0x80 then b[i] as char else '?')
  }

  lemma AsciiStringRoundTrip(s: string)
    requires IsAscii(s)
    ensures AsciiString(AsciiBytes(s)) == s
  {
  }

  lemma AsciiBytesRoundTrip(b: seq<byte>)
    requires AsciiBytesOnly(b)
    ensures AsciiBytes(AsciiString(b)) == b
  {
  }

  /** Characters outside ASCII do not survive encoding: each comes back as '?'. */
  lemma NonAsciiBecomesQuestionMark(s: string, i: nat)
    requires i < |s| && s[i] as int >= 0x80
    ensures AsciiString(AsciiBytes(s))[i] == '?'
  {
  }

  /** ReadBytesFromStream on a MemoryStream over `data` positioned at `pos`: a fresh zeroed
      buffer of n bytes into which whatever the stream still holds is copied. Once the stream
      is exhausted its position stops at the end, so every later read yields zeros, which is
      the same as reading at the nominal offset with zeros past the end. */
  function ReadBytes(data: seq<byte>, pos: nat, n: nat): (r: seq<byte>)
    ensures |r| == n
    ensures pos + n <= |data| ==> r == data[pos..pos + n]
    ensures pos >= |data| ==> forall i :: 0 <= i < n ==> r[i] == 0
  {
    seq(n, i requires 0 <= i < n => if pos + i < |data| then data[pos + i] else 0)
  }

  /** ToBytes. The size field is the buffer length minus the four bytes of the field itself. */
  function Encode(p: Packet, host: Endianness): (r: seq<byte>)
    requires |p.body| <= MaxBodyLength
    ensures |r| == Overhead + |p.body|
    ensures FromLittleEndian(r[0..4]) == |r| - 4 == 10 + |p.body|
    ensures r[4..8] == LittleEndian(p.id)
    ensures r[8..12] == LittleEndian(p.kind)
    ensures r[12..12 + |p.body|] == AsciiBytes(p.body)
    ensures r[|r| - 2] == 0 && r[|r| - 1] == 0
  {
    var size := Overhead + |p.body| - 4;
    LittleEndianRoundTrip(size);
    WriteInt32(size, host) + WriteInt32(p.id, host) + WriteInt32(p.kind, host)
      + AsciiBytes(p.body) + [0, 0]
  }

  /** The size field of a buffer, as ToPacket reads it. */
  function SizeField(data: seq<byte>): int32
  {
    FromLittleEndian(ReadBytes(data, 0, 4))
  }

  /** ToPacket. Reads size, id and type, then a body of size - 10 bytes, then two bytes it
      discards. A size below 10 makes C# throw: `new byte[size - 10]` is a negative array size,
      or, where `size - 10` wraps round, an array beyond the runtime's limit. A body longer than
      the longest .NET string makes Encoding.ASCII.GetString throw (a body beyond the array limit
      is longer still, so its allocation fails first). A buffer shorter than its size field claims
      is not rejected: the missing bytes read as zeros. */
  function Decode(data: seq<byte>, host: Endianness): (r: Result<Packet>)
    ensures r.Ok? <==> 10 <= SizeField(data) <= MaxStringLength + 10
    ensures r.Err? ==> r.error == MalformedPacket
    ensures r.Ok? ==> |r.value.body| == SizeField(data) - 10 && IsAscii(r.value.body)
    ensures r.Ok? && 12 <= |data| ==>
              r.value.id == FromLittleEndian(data[4..8]) && r.value.kind == FromLittleEndian(data[8..12])
    ensures r.Ok? && SizeField(data) + 2 <= |data| ==>
              r.value.body == AsciiString(data[12..SizeField(data) + 2])
  {
    var length := ReadInt32(ReadBytes(data, 0, 4), host);
    var id := ReadInt32(ReadBytes(data, 4, 4), host);
    var kind := ReadInt32(ReadBytes(data, 8, 4), host);
    var bodySize := length - 4 - 4 - 2;
    if bodySize < 0 || bodySize > MaxStringLength then
      Err(MalformedPacket)
    else
      Ok(Packet(id, kind, AsciiString(ReadBytes(data, 12, bodySize))))
  }

  /** A buffer that is exactly one frame with an ASCII body: its body fits a .NET string, the size
      field counts the rest of the buffer, the body is ASCII and the last two bytes are zero. */
  predicate WellFormed(data: seq<byte>) {
    && Overhead <= |data| <= Overhead + MaxStringLength
    && FromLittleEndian(data[0..4]) == |data| - 4
    && AsciiBytesOnly(data[12..|data| - 2])
    && data[|data| - 2] == 0 && data[|data| - 1] == 0
  }

  /** Every encoding of a packet with an ASCII body is a well-formed frame. */
  lemma EncodeWellFormed(p: Packet, host: Endianness)
    requires |p.body| <= MaxBodyLength
    ensures WellFormed(Encode(p, host))
  {
  }

  /** Decoding an encoding gives back the packet, whatever the hosts' byte orders. */
  lemma {:induction false} RoundTrip(p: Packet, writer: Endianness, reader: Endianness)
    requires |p.body| <= MaxBodyLength && IsAscii(p.body)
    ensures Decode(Encode(p, writer), reader) == Ok(p)
  {
    var data := Encode(p, writer);
    LittleEndianRoundTrip(p.id);
    LittleEndianRoundTrip(p.kind);
    assert data[0..4] == ReadBytes(data, 0, 4);
    AsciiStringRoundTrip(p.body);
  }

  /** Two frames of the same length agree when their header words, bodies and trailers agree. */
  lemma FramesEqual(a: seq<byte>, b: seq<byte>)
    requires |a| == |b| >= Overhead
    requires a[0..4] == b[0..4] && a[4..8] == b[4..8] && a[8..12] == b[8..12]
    requires a[12..|a| - 2] == b[12..|b| - 2]
    requires a[|a| - 2] == b[|b| - 2] && a[|a| - 1] == b[|b| - 1]
    ensures a == b
  {
  }

  /** Conversely, re-encoding the packet decoded from a well-formed frame gives back the frame. */
  lemma {:induction false} WellFormedRoundTrip(data: seq<byte>, reader: Endianness, writer: Endianness)
    requires WellFormed(data)
    ensures Decode(data, reader).Ok?
    ensures |Decode(data, reader).value.body| <= MaxBodyLength
    ensures Encode(Decode(data, reader).value, writer) == data
  {
    var n := |data|;
    assert data[0..4] == ReadBytes(data, 0, 4);
    assert SizeField(data) == n - 4;
    var p := Decode(data, reader).value;
    assert p.body == AsciiString(data[12..n - 2]);
    var e := Encode(p, writer);
    assert |e| == n;
    FromLittleEndianRoundTrip(data[0..4]);
    FromLittleEndianRoundTrip(e[0..4]);
    assert e[0..4] == data[0..4];
    FromLittleEndianRoundTrip(data[4..8]);
    assert e[4..8] == data[4..8];
    FromLittleEndianRoundTrip(data[8..12]);
    assert e[8..12] == data[8..12];
    AsciiBytesRoundTrip(data[12..n - 2]);
    assert e[12..n - 2] == data[12..n - 2];
    FramesEqual(e, data);
  }
}
